=== FILE: README.md ===
# Monitoring metrics selection, modelled in Dafny

The model covers `compute_monitoring_metrics(system_type, y_true, y_pred)`. The tag names the kind of
system being monitored: "classification", "regression" or "ranking". The function pairs the true and
predicted values with `zip` and computes that branch's metrics. It returns them as a list of
(name, value) pairs sorted by name. Any other tag takes no branch and returns an empty list.

The Dafny modules follow the function's structure:

- `SafeDivision`: the nested `safe_div`. A zero divisor gives 0 instead of a fault.
- `Pairing`: `zip`, which stops at the shorter sequence; the true values of a list of pairs; Python's `sum`.
- `ClassificationMetrics`: the TP/FP/FN/TN counting loop, then accuracy, precision, recall and F1.
- `RegressionMetrics`: the summed absolute and squared errors, then MAE and the value under RMSE's root.
- `StableSort`: a stable sort by key under a strict order. It models both sorts the function performs:
  `pairs.sort(key=score, reverse=True)` and `sorted(metrics, key=name)`.
- `RankingMetrics`: ranking by score, the top three, precision@3 and recall@3.
- `LexOrder`: Python's ordering of `str`.
- `MetricTypes`: a metric's name and value.
- `Monitoring`: the dispatch on the tag and the final sort. `Monitoring.Compute` is the whole function.
  It returns `Ok(metrics)` or `ZeroDivisionError`.

Every number is an exact `real`. A label such as `1` is the real `1.0`, which Python's `1 == 1.0` also
treats as equal.

## Model

| member | source | states |
|---|---|---|
| SafeDivision.SafeDiv | monitoring-metrics-selection/monitoring-metrics-selection.py:8-9 | a nonzero divisor gives the true quotient (result times divisor is the dividend); a zero divisor gives exactly 0 |
| SafeDivision.SafeDivUnitInterval | monitoring-metrics-selection/monitoring-metrics-selection.py:8-9 | a non-negative dividend no larger than the divisor gives a quotient in [0, 1], the divisor-0 case included |
| ClassificationMetrics.CellOf | monitoring-metrics-selection/monitoring-metrics-selection.py:18-25 | a pair is a true positive exactly for labels (1, 1), a false positive exactly for (0, 1), a false negative exactly for (1, 0); every other pair, a non-binary value included, is a true negative |
| ClassificationMetrics.TallyTotal | monitoring-metrics-selection/monitoring-metrics-selection.py:17-25 | Tally, the counting loop: the four counters add up to the number of pairs the loop visits |
| ClassificationMetrics.TallyCountsCell | monitoring-metrics-selection/monitoring-metrics-selection.py:17-25 | Tally, the counting loop: the counter of a cell equals the number of pairs whose cell it is |
| ClassificationMetrics.TallyCountsCells | monitoring-metrics-selection/monitoring-metrics-selection.py:15-25 | after the loop, each counter equals the number of pairs that fall in its cell, and the four add up to the number of pairs |
| ClassificationMetrics.ConfusionCountsZippedPairs | monitoring-metrics-selection/monitoring-metrics-selection.py:15-25 | TP + FP + FN + TN = min(len(y_true), len(y_pred)), the number of pairs `zip` yields |
| ClassificationMetrics.CounterZeroIff | monitoring-metrics-selection/monitoring-metrics-selection.py:17-25 | a cell's count is 0 exactly when no pair falls in that cell |
| ClassificationMetrics.Accuracy | monitoring-metrics-selection/monitoring-metrics-selection.py:27 | for a non-empty y_true, accuracy times len(y_true) is TP + TN; for an empty y_true it is 0 |
| ClassificationMetrics.Precision | monitoring-metrics-selection/monitoring-metrics-selection.py:28 | precision times TP + FP is TP when there are positive predictions; without any it is 0 |
| ClassificationMetrics.Recall | monitoring-metrics-selection/monitoring-metrics-selection.py:29 | recall times TP + FN is TP when there are positive labels; without any it is 0 |
| ClassificationMetrics.F1 | monitoring-metrics-selection/monitoring-metrics-selection.py:30 | F1 times (precision + recall) is 2 * precision * recall when that sum is nonzero; otherwise F1 is 0 |
| ClassificationMetrics.Metrics | monitoring-metrics-selection/monitoring-metrics-selection.py:32-37 | the branch emits exactly the names accuracy, f1, precision, recall, in that order, each paired with its own value computed from the confusion matrix of the zipped pairs and len(y_true) |
| ClassificationMetrics.F1FromCounts | monitoring-metrics-selection/monitoring-metrics-selection.py:28-30 | F1 from the safely divided precision and recall equals 2TP / (2TP + FP + FN), which is 0 when TP is 0 |
| ClassificationMetrics.F1OfEqualPrecisionAndRecall | monitoring-metrics-selection/monitoring-metrics-selection.py:30 | when precision equals recall, F1 equals them; for 0 this holds through the zero-divisor rule |
| ClassificationMetrics.MetricsInUnitInterval | monitoring-metrics-selection/monitoring-metrics-selection.py:27-30 | accuracy, precision, recall and F1 each lie in [0, 1], whatever the two lengths |
| ClassificationMetrics.ZeroMetricsIffNoTruePositive | monitoring-metrics-selection/monitoring-metrics-selection.py:28-30 | precision, recall and F1 are each 0 exactly when the TP counter is 0 |
| ClassificationMetrics.NoTruePositiveIff | monitoring-metrics-selection/monitoring-metrics-selection.py:17-19 | TP is 0 exactly when no zipped pair has true label 1 and prediction 1 |
| ClassificationMetrics.NoTruePositiveIffZero | monitoring-metrics-selection/monitoring-metrics-selection.py:17-30 | precision, recall and F1 are each 0 exactly when no zipped pair has true label 1 and prediction 1 |
| ClassificationMetrics.PrecisionZeroWithoutPositivePredictions | monitoring-metrics-selection/monitoring-metrics-selection.py:28 | a model that never predicts 1 has precision 0 (its divisor TP + FP is 0) |
| ClassificationMetrics.RecallZeroWithoutPositiveLabels | monitoring-metrics-selection/monitoring-metrics-selection.py:29 | without any true label 1, recall is 0 (its divisor TP + FN is 0) |
| ClassificationMetrics.NoPairsAllZero | monitoring-metrics-selection/monitoring-metrics-selection.py:27-37 | with no pairs every counter is 0, so accuracy's numerator and the divisors of precision, recall and F1 are 0, and all four metrics are exactly 0, even when len(y_true), accuracy's divisor, is positive |
| ClassificationMetrics.OnePairPerCellExample | monitoring-metrics-selection/monitoring-metrics-selection.py:14-37 | labels [1, 0, 1, 0] against [1, 1, 0, 0] give 0.5 for all four metrics |
| RegressionMetrics.Mae | monitoring-metrics-selection/monitoring-metrics-selection.py:40-48 | for non-empty y_true, MAE is non-negative, and MAE times len(y_true) is the sum of absolute errors over the zipped pairs |
| RegressionMetrics.Mse | monitoring-metrics-selection/monitoring-metrics-selection.py:41-49 | the value under the root is non-negative, and times len(y_true) it is the sum of squared errors over the zipped pairs |
| RegressionMetrics.Metrics | monitoring-metrics-selection/monitoring-metrics-selection.py:49-54 | the branch emits mae with the MAE and rmse with the square root of the mean squared error, which is non-negative |
| RegressionMetrics.AbsErrorSum | monitoring-metrics-selection/monitoring-metrics-selection.py:43-45 | the sum of absolute errors over the zipped pairs is non-negative |
| RegressionMetrics.SquaredErrorSum | monitoring-metrics-selection/monitoring-metrics-selection.py:43-46 | the sum of squared errors over the zipped pairs is non-negative |
| RegressionMetrics.ErrorSumsZeroIff | monitoring-metrics-selection/monitoring-metrics-selection.py:43-46 | the absolute and the squared error sums are each 0 exactly when every pair is predicted exactly |
| RegressionMetrics.ZeroErrorIff | monitoring-metrics-selection/monitoring-metrics-selection.py:43-49 | MAE is 0, and so is the mean squared error, exactly when every zipped prediction equals its true value |
| RegressionMetrics.ErrorSumsCauchySchwarz | monitoring-metrics-selection/monitoring-metrics-selection.py:43-46 | (sum of absolute errors)^2 <= number of pairs * (sum of squared errors) |
| RegressionMetrics.MaeSquaredAtMostMse | monitoring-metrics-selection/monitoring-metrics-selection.py:48-49 | MAE^2 <= the value under RMSE's root |
| RegressionMetrics.RmseAtLeastMae | monitoring-metrics-selection/monitoring-metrics-selection.py:48-49 | any non-negative root of that value, the reported RMSE, is at least the MAE |
| RegressionMetrics.TwoPointExample | monitoring-metrics-selection/monitoring-metrics-selection.py:39-54 | values [3, 5] against [2, 8] give MAE 2 and RMSE the square root of 5 |
| StableSort.Insert | monitoring-metrics-selection/monitoring-metrics-selection.py:58 | one insertion step adds exactly its element to the sequence, so the result is a permutation of the element plus the input |
| StableSort.SortBy | monitoring-metrics-selection/monitoring-metrics-selection.py:58 | the sort returns a permutation of its input |
| StableSort.SortByIsSorted | monitoring-metrics-selection/monitoring-metrics-selection.py:58 | under a strict total order, no element of the result has a key that goes before an earlier element's key |
| StableSort.SortByIsStable | monitoring-metrics-selection/monitoring-metrics-selection.py:58 | for every key, the elements with that key appear in the result in their input order |
| StableSort.SortBySortedIsIdentity | monitoring-metrics-selection/monitoring-metrics-selection.py:58 | an input already in order comes back unchanged |
| LexOrder.LexLessAtFirstDifference | monitoring-metrics-selection/monitoring-metrics-selection.py:72 | two names are ordered by the code points at the first index where they differ |
| LexOrder.LexLessProperPrefix | monitoring-metrics-selection/monitoring-metrics-selection.py:72 | a name sorts strictly before every longer name it is a prefix of |
| LexOrder.LexLessIsStrictTotalOrder | monitoring-metrics-selection/monitoring-metrics-selection.py:72 | Python's string order on names is irreflexive, transitive and total, so it is a valid sort order |
| Pairing.ZipTruncates | monitoring-metrics-selection/monitoring-metrics-selection.py:17 | `zip` yields min(len(y_true), len(y_pred)) pairs, pair i holds the two values at index i, and the tail of the longer sequence is ignored |
| RankingMetrics.Ranked | monitoring-metrics-selection/monitoring-metrics-selection.py:57-58 | the ranking has exactly as many pairs as the zip; that these are the same pairs, reordered, is RankingMetrics.RankedIsStableDescending |
| RankingMetrics.Top3 | monitoring-metrics-selection/monitoring-metrics-selection.py:60 | the top three are the first min(3, number of pairs) ranked pairs |
| RankingMetrics.RankedIsStableDescending | monitoring-metrics-selection/monitoring-metrics-selection.py:57-58 | the ranking is a permutation of the zipped pairs, scores never increase along it, and pairs with equal scores keep their input order |
| RankingMetrics.Top3ScoresHighest | monitoring-metrics-selection/monitoring-metrics-selection.py:58-60 | every pair in the top three scores at least as high as every pair left out |
| RankingMetrics.RankedDescendingIsIdentity | monitoring-metrics-selection/monitoring-metrics-selection.py:58 | pairs already in descending score order are ranked as given |
| RankingMetrics.RelevantTop3OfFewPairs | monitoring-metrics-selection/monitoring-metrics-selection.py:60-61 | with at most three pairs, the top-three relevance is the relevance of all zipped pairs |
| RankingMetrics.RelevantTop3OfManyPairs | monitoring-metrics-selection/monitoring-metrics-selection.py:60-61 | with three or more pairs, the top-three relevance is the sum of the relevances of the first three ranked pairs |
| RankingMetrics.TotalRelevantCountsUnpaired | monitoring-metrics-selection/monitoring-metrics-selection.py:62 | the total relevance is that of the zipped pairs plus that of the values of y_true left unpaired |
| RankingMetrics.PrecisionAt3 | monitoring-metrics-selection/monitoring-metrics-selection.py:61-64 | precision@3 times 3 is the relevance found in the top three, even when fewer than three pairs exist |
| RankingMetrics.RecallAt3 | monitoring-metrics-selection/monitoring-metrics-selection.py:61-65 | with nonzero total relevance over all of y_true, recall@3 times that total is the top-three relevance; otherwise it is 0 |
| RankingMetrics.Metrics | monitoring-metrics-selection/monitoring-metrics-selection.py:67-70 | the branch emits the names precision_at_3, recall_at_3 with those two values |
| RankingMetrics.BinaryRelevanceBounds | monitoring-metrics-selection/monitoring-metrics-selection.py:60-65 | with 0/1 relevances the top-three relevance lies in [0, 3] and is at most the total relevance, so both metrics lie in [0, 1] |
| RankingMetrics.TwoItemExample | monitoring-metrics-selection/monitoring-metrics-selection.py:56-70 | relevances [1, 0] scored [0.9, 0.1] give precision@3 = 1/3 and recall@3 = 1 |
| RankingMetrics.TiedScoresRanking | monitoring-metrics-selection/monitoring-metrics-selection.py:58 | four pairs with equal scores are ranked in input order |
| RankingMetrics.TiedScoresExample | monitoring-metrics-selection/monitoring-metrics-selection.py:58-70 | with ties kept in input order, relevances [0, 1, 1, 1] at equal scores give 2/3 for both metrics |
| Monitoring.ParseSystemType | monitoring-metrics-selection/monitoring-metrics-selection.py:14-56 | each branch is taken exactly when the tag equals its name |
| Monitoring.BranchMetrics | monitoring-metrics-selection/monitoring-metrics-selection.py:12-70 | the branch faults exactly for regression with an empty y_true; otherwise it builds the names of the tag's row in the name table |
| Monitoring.Compute | monitoring-metrics-selection/monitoring-metrics-selection.py:3-72 | the call faults exactly for the "regression" tag with an empty y_true; otherwise the names returned are the tag's row of the table and strictly ascending |
| Monitoring.SortByName | monitoring-metrics-selection/monitoring-metrics-selection.py:72 | the final sort by name keeps every metric: same length, same multiset of metrics |
| Monitoring.RegressionEmptyFaults | monitoring-metrics-selection/monitoring-metrics-selection.py:48 | regression with an empty y_true faults with ZeroDivisionError, as dividing by len(y_true) = 0 does |
| Monitoring.SortByNameOrdersNames | monitoring-metrics-selection/monitoring-metrics-selection.py:72 | the final sort permutes any metric list and leaves its names in non-decreasing order |
| Monitoring.ComputeReturnsBranchList | monitoring-metrics-selection/monitoring-metrics-selection.py:12-72 | each branch's list reaches the caller unchanged by the final sort, and an unrecognized tag gives the empty list |
| Monitoring.UnknownTagExamples | monitoring-metrics-selection/monitoring-metrics-selection.py:12-72 | tag "unknown" gives [] for empty inputs and for [1] against [0] |
| Monitoring.ClassificationExample | monitoring-metrics-selection/monitoring-metrics-selection.py:14-72 | the full call on [1, 0, 1, 0] against [1, 1, 0, 0] returns accuracy, f1, precision, recall, each 0.5 |
| Monitoring.RegressionExample | monitoring-metrics-selection/monitoring-metrics-selection.py:39-72 | the full call on [3, 5] against [2, 8] returns mae 2 and rmse the root of 5 |
| Monitoring.RankingExample | monitoring-metrics-selection/monitoring-metrics-selection.py:56-72 | the full call on [1, 0] scored [0.9, 0.1] returns precision_at_3 1/3 and recall_at_3 1 |

## Left out

- Floating point: every division, sum and comparison is over exact reals. IEEE rounding, NaN and infinities are not modelled, and neither are the two `OverflowError` paths that finite inputs can take in Python: `diff ** 2` (line 46) on a float whose square leaves the float range, and an int-by-int true division (lines 48-49, 64-65) whose quotient is too large for a float.
- `math.sqrt` (line 49): RMSE is kept as the symbolic value `SquareRoot(mse)`. The mean squared error under it is exact and proved non-negative.
- RegressionMetrics.RmseAtLeastMae: states the RMSE bound for any non-negative root of the mean squared error, because the root itself is not computed.
- Dynamic typing: elements are numbers only. Non-numeric or mixed-type elements, and Python's `True == 1`, are not modelled. Labels are reals rather than integers, so a binary label is `0.0` or `1.0`.
- The regression fault (line 48), the only failure over exact reals: it is the outcome `ZeroDivisionError` of `Monitoring.Compute` rather than an exception. The regression functions themselves require a non-empty `y_true`, which is the only case in which the source returns from them.
- Unequal lengths: the model follows the code rather than the assumption that both sequences have the same length. `zip` truncates to the shorter sequence. Accuracy, MAE and the mean squared error still divide by `len(y_true)`. Recall@3's total sums all of `y_true`, including values that were never paired.
- Purity and repeatability: every member is a pure Dafny function, so equal inputs give equal results by construction. No separate lemma states this.
- Python's sort algorithm (Timsort) is replaced by an insertion sort that has the same stable result. Only the result is modelled, not the algorithm's steps or cost.

=== FILE: classification.dfy ===
/**
 The "classification" branch: a confusion matrix over the zipped label pairs,
 then accuracy, precision, recall and F1 through safe division.
 */
module ClassificationMetrics {
  import opened Pairing
  import opened SafeDivision
  import opened MetricTypes

  /** The confusion-matrix cell one (true label, predicted label) pair is counted in. */
  datatype Cell = TruePositive | FalsePositive | FalseNegative | TrueNegative

  /**
   The if/elif chain of the counting loop. Only the three binary combinations
   it tests first have a cell of their own; everything else, non-binary labels
   included, is counted as a true negative.
   */
  function CellOf(p: Pair): (c: Cell)
    ensures c == TruePositive <==> p.truth == 1.0 && p.pred == 1.0
    ensures c == FalsePositive <==> p.truth == 0.0 && p.pred == 1.0
    ensures c == FalseNegative <==> p.truth == 1.0 && p.pred == 0.0
    ensures (p.truth != 0.0 && p.truth != 1.0) || (p.pred != 0.0 && p.pred != 1.0) ==> c == TrueNegative
  {
    if p.truth == 1.0 && p.pred == 1.0 then TruePositive
    else if p.truth == 0.0 && p.pred == 1.0 then FalsePositive
    else if p.truth == 1.0 && p.pred == 0.0 then FalseNegative
    else TrueNegative
  }

  /** The cell of each pair, in order. */
  function Cells(ps: seq<Pair>): seq<Cell> {
    seq(|ps|, i requires 0 <= i < |ps| => CellOf(ps[i]))
  }

  /** The four counters TP, FP, FN and TN. */
  datatype Confusion = Confusion(tp: nat, fp: nat, fn: nat, tn: nat) {

    function Total(): nat {
      tp + fp + fn + tn
    }

    /** The counter of cell `c`. */
    function Get(c: Cell): nat {
      match c
      case TruePositive => tp
      case FalsePositive => fp
      case FalseNegative => fn
      case TrueNegative => tn
    }

    /** One loop iteration: exactly the counter of cell `c` goes up by one. */
    function Count(c: Cell): (r: Confusion)
    {
      match c
      case TruePositive => this.(tp := tp + 1)
      case FalsePositive => this.(fp := fp + 1)
      case FalseNegative => this.(fn := fn + 1)
      case TrueNegative => this.(tn := tn + 1)
    }
  }

  /** The counters after the loop has visited every pair of `ps`; one count per pair. */
  function Tally(ps: seq<Pair>): Confusion {
    if |ps| == 0 then Confusion(0, 0, 0, 0)
    else Tally(ps[1..]).Count(CellOf(ps[0]))
  }

  /** Each iteration adds exactly one count. */
  lemma CountTotal(conf: Confusion, c: Cell)
    ensures conf.Count(c).Total() == conf.Total() + 1
  {
  }

  /** The loop counts every pair exactly once. */
  lemma {:induction false} TallyTotal(ps: seq<Pair>)
    ensures Tally(ps).Total() == |ps|
  {
    if |ps| > 0 {
      TallyTotal(ps[1..]);
      CountTotal(Tally(ps[1..]), CellOf(ps[0]));
    }
  }

  /** Counting cell `c` raises its counter by one and leaves every other counter as it was. */
  lemma CountGet(conf: Confusion, c: Cell, k: Cell)
    ensures conf.Count(c).Get(k) == conf.Get(k) + (if k == c then 1 else 0)
  {
  }

  lemma CellsCons(ps: seq<Pair>)
    requires |ps| > 0
    ensures Cells(ps) == [CellOf(ps[0])] + Cells(ps[1..])
  {
  }

  lemma MultisetCons(x: Cell, rest: seq<Cell>, k: Cell)
    ensures multiset([x] + rest)[k] == multiset(rest)[k] + (if x == k then 1 else 0)
  {
  }

  /** The counter of `cell` is the number of pairs whose cell it is. */
  lemma {:induction false} TallyCountsCell(ps: seq<Pair>, cell: Cell)
    ensures Tally(ps).Get(cell) == multiset(Cells(ps))[cell]
  {
    if |ps| == 0 {
      assert Cells(ps) == [];
    } else {
      var x := CellOf(ps[0]);
      TallyCountsCell(ps[1..], cell);
      CellsCons(ps);
      MultisetCons(x, Cells(ps[1..]), cell);
      CountGet(Tally(ps[1..]), x, cell);
    }
  }

  /**
   Each counter is the number of pairs whose cell it is, so the four add up
   to the number of pairs.
   */
  lemma TallyCountsCells(ps: seq<Pair>)
    ensures var c, m := Tally(ps), multiset(Cells(ps));
      && c.Total() == |ps|
      && c.tp == m[TruePositive]
      && c.fp == m[FalsePositive]
      && c.fn == m[FalseNegative]
      && c.tn == m[TrueNegative]
  {
    TallyTotal(ps);
    TallyCountsCell(ps, TruePositive);
    TallyCountsCell(ps, FalsePositive);
    TallyCountsCell(ps, FalseNegative);
    TallyCountsCell(ps, TrueNegative);
  }

  /** `safe_div(TP + TN, n)`: the share of the `n` true labels counted as TP or TN, or 0 for no labels. */
  function Accuracy(c: Confusion, n: nat): (a: real)
    ensures n > 0 ==> a * n as real == (c.tp + c.tn) as real
    ensures n == 0 ==> a == 0.0
  {
    SafeDiv((c.tp + c.tn) as real, n as real)
  }

  /** `safe_div(TP, TP + FP)`: the share of positive predictions that are right, or 0 without any. */
  function Precision(c: Confusion): (p: real)
    ensures c.tp + c.fp > 0 ==> p * (c.tp + c.fp) as real == c.tp as real
    ensures c.tp + c.fp == 0 ==> p == 0.0
  {
    SafeDiv(c.tp as real, (c.tp + c.fp) as real)
  }

  /** `safe_div(TP, TP + FN)`: the share of positive labels found, or 0 without any. */
  function Recall(c: Confusion): (r: real)
    ensures c.tp + c.fn > 0 ==> r * (c.tp + c.fn) as real == c.tp as real
    ensures c.tp + c.fn == 0 ==> r == 0.0
  {
    SafeDiv(c.tp as real, (c.tp + c.fn) as real)
  }

  /**
   F1 from the already safely divided precision and recall: their harmonic
   mean, or 0 when both are 0.
   */
  function F1(precision: real, recall: real): (f: real)
    ensures precision + recall != 0.0 ==> f * (precision + recall) == 2.0 * precision * recall
    ensures precision + recall == 0.0 ==> f == 0.0
  {
    SafeDiv(2.0 * precision * recall, precision + recall)
  }

  /** The confusion matrix of the zipped label pairs. */
  function ConfusionOf(yTrue: seq<real>, yPred: seq<real>): Confusion {
    Tally(Zip(yTrue, yPred))
  }

  /** The four metrics of confusion matrix `c` over `n` true labels, in the order the list is built. */
  function MetricsOf(c: Confusion, n: nat): (ms: seq<Metric>)
    ensures Names(ms) == ["accuracy", "f1", "precision", "recall"]
  {
    var precision := Precision(c);
    var recall := Recall(c);
    [ Metric("accuracy", Exact(Accuracy(c, n))),
      Metric("f1", Exact(F1(precision, recall))),
      Metric("precision", Exact(precision)),
      Metric("recall", Exact(recall)) ]
  }

  /**
   The branch's list. Accuracy divides by the number of true labels, not by
   the number of zipped pairs.
   */
  function Metrics(yTrue: seq<real>, yPred: seq<real>): (ms: seq<Metric>)
    ensures Names(ms) == ["accuracy", "f1", "precision", "recall"]
    ensures var c := ConfusionOf(yTrue, yPred);
      && ms[0].value == Exact(Accuracy(c, |yTrue|))
      && ms[1].value == Exact(F1(Precision(c), Recall(c)))
      && ms[2].value == Exact(Precision(c))
      && ms[3].value == Exact(Recall(c))
  {
    MetricsOf(ConfusionOf(yTrue, yPred), |yTrue|)
  }

  /** The counters add up to min(|y_true|, |y_pred|), the number of pairs `zip` yields. */
  lemma ConfusionCountsZippedPairs(yTrue: seq<real>, yPred: seq<real>)
    ensures ConfusionOf(yTrue, yPred).Total() == Min(|yTrue|, |yPred|)
  {
    TallyCountsCells(Zip(yTrue, yPred));
  }

  /** A counter is zero exactly when no pair falls in its cell. */
  lemma CounterZeroIff(ps: seq<Pair>, cell: Cell)
    ensures multiset(Cells(ps))[cell] == 0 <==> forall i :: 0 <= i < |ps| ==> CellOf(ps[i]) != cell
  {
    var cells := Cells(ps);
    if multiset(cells)[cell] != 0 {
      assert cell in cells;
      var i :| 0 <= i < |cells| && cells[i] == cell;
      assert CellOf(ps[i]) == cell;
    } else {
      forall i | 0 <= i < |ps| ensures CellOf(ps[i]) != cell {
        assert cells[i] in multiset(cells);
      }
    }
  }

  /**
   The algebra behind F1FromCounts: with precision p = t/a, recall r = t/b
   and f (p + r) = 2 p r, f (a + b) = 2 t.
   */
  lemma F1Algebra(t: real, a: real, b: real, p: real, r: real, f: real)
    requires t > 0.0 && a > 0.0 && b > 0.0
    requires p * a == t && r * b == t && f * (p + r) == 2.0 * p * r
    ensures f * (a + b) == 2.0 * t
  {
    assert f * (p + r) * a * b == f * t * (a + b) by {
      assert (p + r) * a * b == (p * a) * b + (r * b) * a;
    }
    assert 2.0 * p * r * a * b == 2.0 * t * t by {
      assert 2.0 * p * r * a * b == 2.0 * (p * a) * (r * b);
    }
    assert (f * (a + b)) * t == (2.0 * t) * t;
    CancelPositive(f * (a + b), 2.0 * t, t);
  }

  /** F1FromCounts for a positive true-positive count `t`, with `a` = TP + FP and `b` = TP + FN. */
  lemma F1OfPositiveCounts(t: real, a: real, b: real)
    requires t > 0.0 && a >= t && b >= t
    ensures F1(SafeDiv(t, a), SafeDiv(t, b)) == SafeDiv(2.0 * t, a + b)
  {
    SafeDivPositive(t, a);
    SafeDivPositive(t, b);
    F1Algebra(t, a, b, SafeDiv(t, a), SafeDiv(t, b), F1(SafeDiv(t, a), SafeDiv(t, b)));
    SafeDivUnique(2.0 * t, a + b, F1(SafeDiv(t, a), SafeDiv(t, b)));
  }

  /** F1 agrees with the count formula 2TP / (2TP + FP + FN), which is 0 when there is no true positive. */
  lemma F1FromCounts(c: Confusion)
    ensures F1(Precision(c), Recall(c)) == SafeDiv(2.0 * c.tp as real, (2 * c.tp + c.fp + c.fn) as real)
  {
    if c.tp > 0 {
      F1OfPositiveCounts(c.tp as real, (c.tp + c.fp) as real, (c.tp + c.fn) as real);
    } else {
      SafeDivOfZero(c.fp as real);
      SafeDivOfZero(c.fn as real);
      SafeDivOfZero(0.0);
      SafeDivOfZero((c.fp + c.fn) as real);
    }
  }

  /** When precision equals recall, F1 equals both; when both are 0 it is 0 by the zero-divisor rule. */
  lemma F1OfEqualPrecisionAndRecall(p: real)
    ensures F1(p, p) == p
  {
    if p != 0.0 {
      assert 2.0 * p * p == p * (p + p);
    }
  }

  /** All four metrics lie in [0, 1], for any lengths of the two sequences. */
  lemma MetricsInUnitInterval(yTrue: seq<real>, yPred: seq<real>)
    ensures var c := ConfusionOf(yTrue, yPred);
      && 0.0 <= Accuracy(c, |yTrue|) <= 1.0
      && 0.0 <= Precision(c) <= 1.0
      && 0.0 <= Recall(c) <= 1.0
      && 0.0 <= F1(Precision(c), Recall(c)) <= 1.0
  {
    var c := ConfusionOf(yTrue, yPred);
    ConfusionCountsZippedPairs(yTrue, yPred);
    SafeDivUnitInterval((c.tp + c.tn) as real, |yTrue| as real);
    SafeDivUnitInterval(c.tp as real, (c.tp + c.fp) as real);
    SafeDivUnitInterval(c.tp as real, (c.tp + c.fn) as real);
    F1FromCounts(c);
    SafeDivUnitInterval(2.0 * c.tp as real, (2 * c.tp + c.fp + c.fn) as real);
  }

  /** Precision, recall and F1 are each 0 exactly when the true-positive counter is 0. */
  lemma ZeroMetricsIffNoTruePositive(c: Confusion)
    ensures Precision(c) == 0.0 <==> c.tp == 0
    ensures Recall(c) == 0.0 <==> c.tp == 0
    ensures F1(Precision(c), Recall(c)) == 0.0 <==> c.tp == 0
  {
    F1FromCounts(c);
    if c.tp > 0 {
      SafeDivPositive(c.tp as real, (c.tp + c.fp) as real);
      SafeDivPositive(c.tp as real, (c.tp + c.fn) as real);
      SafeDivPositive(2.0 * c.tp as real, (2 * c.tp + c.fp + c.fn) as real);
    }
  }

  /** No zipped pair has true label 1 and prediction 1. */
  predicate NoTruePositivePair(yTrue: seq<real>, yPred: seq<real>) {
    forall i :: 0 <= i < Min(|yTrue|, |yPred|) ==> !(yTrue[i] == 1.0 && yPred[i] == 1.0)
  }

  /** The true-positive counter is 0 exactly when no zipped pair has true label 1 and prediction 1. */
  lemma NoTruePositiveIff(yTrue: seq<real>, yPred: seq<real>)
    ensures ConfusionOf(yTrue, yPred).tp == 0 <==> NoTruePositivePair(yTrue, yPred)
  {
    var ps := Zip(yTrue, yPred);
    TallyCountsCells(ps);
    CounterZeroIff(ps, TruePositive);
    assert forall i :: 0 <= i < |ps| ==> ps[i] == Pair(yTrue[i], yPred[i]);
  }

  /**
   Precision, recall and F1 are each 0 exactly when no zipped pair has
   true label 1 and prediction 1.
   */
  lemma NoTruePositiveIffZero(yTrue: seq<real>, yPred: seq<real>)
    ensures var c := ConfusionOf(yTrue, yPred);
      && (Precision(c) == 0.0 <==> NoTruePositivePair(yTrue, yPred))
      && (Recall(c) == 0.0 <==> NoTruePositivePair(yTrue, yPred))
      && (F1(Precision(c), Recall(c)) == 0.0 <==> NoTruePositivePair(yTrue, yPred))
  {
    ZeroMetricsIffNoTruePositive(ConfusionOf(yTrue, yPred));
    NoTruePositiveIff(yTrue, yPred);
  }

  /** A model that never predicts 1 has precision 0. */
  lemma PrecisionZeroWithoutPositivePredictions(yTrue: seq<real>, yPred: seq<real>)
    requires forall i :: 0 <= i < |yPred| ==> yPred[i] != 1.0
    ensures Precision(ConfusionOf(yTrue, yPred)) == 0.0
  {
    var ps := Zip(yTrue, yPred);
    TallyCountsCells(ps);
    CounterZeroIff(ps, TruePositive);
    CounterZeroIff(ps, FalsePositive);
  }

  /** Without any true label 1, recall is 0. */
  lemma RecallZeroWithoutPositiveLabels(yTrue: seq<real>, yPred: seq<real>)
    requires forall i :: 0 <= i < |yTrue| ==> yTrue[i] != 1.0
    ensures Recall(ConfusionOf(yTrue, yPred)) == 0.0
  {
    var ps := Zip(yTrue, yPred);
    TallyCountsCells(ps);
    CounterZeroIff(ps, TruePositive);
    CounterZeroIff(ps, FalseNegative);
  }

  /**
   With no pairs every counter is 0, so accuracy's numerator and the divisors
   of precision, recall and F1 are 0: all four metrics are 0, even when
   `y_true` is non-empty and accuracy divides by its length.
   */
  lemma NoPairsAllZero(yTrue: seq<real>, yPred: seq<real>)
    requires |yTrue| == 0 || |yPred| == 0
    ensures Metrics(yTrue, yPred) == [
      Metric("accuracy", Exact(0.0)), Metric("f1", Exact(0.0)),
      Metric("precision", Exact(0.0)), Metric("recall", Exact(0.0)) ]
  {
    assert Zip(yTrue, yPred) == [];
    var c := ConfusionOf(yTrue, yPred);
    assert c == Confusion(0, 0, 0, 0);
    assert Accuracy(c, |yTrue|) == 0.0;
    assert Precision(c) == 0.0 && Recall(c) == 0.0;
    assert F1(0.0, 0.0) == 0.0;
  }

  /** Four pairs, one in each cell, in the order TP, FP, FN, TN, give one count per counter. */
  lemma TallyOneOfEach(ps: seq<Pair>)
    requires |ps| == 4
    requires CellOf(ps[0]) == TruePositive && CellOf(ps[1]) == FalsePositive
    requires CellOf(ps[2]) == FalseNegative && CellOf(ps[3]) == TrueNegative
    ensures Tally(ps) == Confusion(1, 1, 1, 1)
  {
    var s1 := ps[1..];
    var s2 := s1[1..];
    var s3 := s2[1..];
    assert s3[0] == ps[3] && |s3[1..]| == 0;
    assert Tally(s3) == Confusion(0, 0, 0, 1);
    assert s2[0] == ps[2];
    assert Tally(s2) == Confusion(0, 0, 1, 1);
    assert s1[0] == ps[1];
    assert Tally(s1) == Confusion(0, 1, 1, 1);
  }

  /** Labels [1, 0, 1, 0] against predictions [1, 1, 0, 0] put one pair in each cell. */
  lemma OnePairPerCellConfusion()
    ensures ConfusionOf([1.0, 0.0, 1.0, 0.0], [1.0, 1.0, 0.0, 0.0]) == Confusion(1, 1, 1, 1)
  {
    var ps := Zip([1.0, 0.0, 1.0, 0.0], [1.0, 1.0, 0.0, 0.0]);
    assert ps[0] == Pair(1.0, 1.0) && ps[1] == Pair(0.0, 1.0);
    assert ps[2] == Pair(1.0, 0.0) && ps[3] == Pair(0.0, 0.0);
    TallyOneOfEach(ps);
  }

  /** A confusion matrix with one count per cell over four labels gives 0.5 for all four metrics. */
  lemma EqualCellsMetrics()
    ensures MetricsOf(Confusion(1, 1, 1, 1), 4) == [
      Metric("accuracy", Exact(0.5)), Metric("f1", Exact(0.5)),
      Metric("precision", Exact(0.5)), Metric("recall", Exact(0.5)) ]
  {
    var c := Confusion(1, 1, 1, 1);
    assert Accuracy(c, 4) == 0.5;
    assert Precision(c) == 0.5 && Recall(c) == 0.5;
    F1OfEqualPrecisionAndRecall(0.5);
  }

  /** One pair in each cell gives 0.5 for all four metrics. */
  lemma OnePairPerCellExample()
    ensures Metrics([1.0, 0.0, 1.0, 0.0], [1.0, 1.0, 0.0, 0.0]) == [
      Metric("accuracy", Exact(0.5)), Metric("f1", Exact(0.5)),
      Metric("precision", Exact(0.5)), Metric("recall", Exact(0.5)) ]
  {
    OnePairPerCellConfusion();
    EqualCellsMetrics();
  }
}

=== FILE: lex_order.dfy ===
/**
 Python's ordering of `str` values: compare code point by code point; at the
 first difference the smaller code point wins, and a proper prefix goes first.
 `sorted(metrics, key=lambda x: x[0])` orders metric names with it.
 */
module LexOrder {
  import StableSort

  /** `a` sorts strictly before `b`. */
  predicate LexLess(a: string, b: string)
    decreases |a|
  {
    if |b| == 0 then false
    else if |a| == 0 then true
    else if a[0] != b[0] then a[0] < b[0]
    else LexLess(a[1..], b[1..])
  }

  /** Every name in `names` sorts strictly before every later one, so no two are equal. */
  predicate StrictlyAscending(names: seq<string>) {
    forall i, j :: 0 <= i < j < |names| ==> LexLess(names[i], names[j])
  }

  lemma {:induction false} LexLessIrreflexive(a: string)
    ensures !LexLess(a, a)
    decreases |a|
  {
    if |a| > 0 {
      LexLessIrreflexive(a[1..]);
    }
  }

  /** Two names never sort strictly before each other. */
  lemma {:induction false} LexLessAsymmetric(a: string, b: string)
    requires LexLess(a, b)
    ensures !LexLess(b, a)
    decreases |a|
  {
    if |a| > 0 && a[0] == b[0] {
      LexLessAsymmetric(a[1..], b[1..]);
    }
  }

  lemma {:induction false} LexLessTransitive(a: string, b: string, c: string)
    requires LexLess(a, b) && LexLess(b, c)
    ensures LexLess(a, c)
    decreases |a|
  {
    if |a| > 0 && a[0] == b[0] && b[0] == c[0] {
      LexLessTransitive(a[1..], b[1..], c[1..]);
    }
  }

  lemma {:induction false} LexLessTotal(a: string, b: string)
    requires a != b
    ensures LexLess(a, b) || LexLess(b, a)
    decreases |a|
  {
    if |a| > 0 && |b| > 0 && a[0] == b[0] {
      assert a == [a[0]] + a[1..] && b == [b[0]] + b[1..];
      LexLessTotal(a[1..], b[1..]);
    }
  }

  /** At the first position where two strings differ, the smaller code point decides. */
  lemma {:induction false} LexLessAtFirstDifference(a: string, b: string, k: nat)
    requires k < |a| && k < |b| && a[..k] == b[..k] && a[k] != b[k]
    ensures LexLess(a, b) <==> a[k] < b[k]
    decreases k
  {
    if k > 0 {
      assert a[0] == a[..k][0] == b[..k][0] == b[0];
      assert a[1..][..k - 1] == a[..k][1..] == b[..k][1..] == b[1..][..k - 1];
      LexLessAtFirstDifference(a[1..], b[1..], k - 1);
    }
  }

  /** A proper prefix sorts strictly before the longer string. */
  lemma {:induction false} LexLessProperPrefix(a: string, b: string)
    requires |a| < |b| && a == b[..|a|]
    ensures LexLess(a, b) && !LexLess(b, a)
    decreases |a|
  {
    if |a| > 0 {
      assert a[0] == b[0];
      assert a[1..] == b[1..][..|a| - 1];
      LexLessProperPrefix(a[1..], b[1..]);
    }
    LexLessAsymmetric(a, b);
  }

  /** Python's string order is a strict total order, so sorting by name is well defined. */
  lemma LexLessIsStrictTotalOrder()
    ensures StableSort.StrictTotalOrder(LexLess)
  {
    forall a: string
      ensures !LexLess(a, a)
    {
      LexLessIrreflexive(a);
    }
    forall a: string, b: string, c: string | LexLess(a, b) && LexLess(b, c)
      ensures LexLess(a, c)
    {
      LexLessTransitive(a, b, c);
    }
    forall a: string, b: string | a != b
      ensures LexLess(a, b) || LexLess(b, a)
    {
      LexLessTotal(a, b);
    }
  }
}

=== FILE: metric_types.dfy ===
/** The named values every branch emits. */
module MetricTypes {

  /**
   A metric value. Every metric is an exact rational except RMSE, the square
   root of a rational, which is kept symbolic as the number it is the root of.
   */
  datatype Value = Exact(x: real) | SquareRoot(radicand: real)

  /** One `(name, value)` tuple of the result list. */
  datatype Metric = Metric(name: string, value: Value)

  /** The key of the final sort. */
  function NameOf(m: Metric): string {
    m.name
  }

  /** The names of `ms`, in order. */
  function Names(ms: seq<Metric>): seq<string> {
    seq(|ms|, i requires 0 <= i < |ms| => ms[i].name)
  }
}

=== FILE: monitoring.dfy ===
/**
 `compute_monitoring_metrics`: pick the branch named by the system-type tag,
 build its list of named metrics, and return that list sorted by name.

 Over exact reals the only failure the function can produce is the
 regression branch's division by `len(y_true)` when `y_true` is empty; it is
 an outcome here.
 */
module Monitoring {
  import opened MetricTypes
  import opened StableSort
  import opened LexOrder
  import ClassificationMetrics
  import RegressionMetrics
  import RankingMetrics

  /** The branches of the tag test; any tag other than the three names takes none of them. */
  datatype SystemType = Classification | Regression | Ranking | Unrecognized

  /** The `if`/`elif` chain on `system_type`, compared by exact string equality. */
  function ParseSystemType(tag: string): (t: SystemType)
    ensures t == Classification <==> tag == "classification"
    ensures t == Regression <==> tag == "regression"
    ensures t == Ranking <==> tag == "ranking"
  {
    if tag == "classification" then Classification
    else if tag == "regression" then Regression
    else if tag == "ranking" then Ranking
    else Unrecognized
  }

  /** What a call produces: the sorted list, or the ZeroDivisionError it raises. */
  datatype Outcome = Ok(metrics: seq<Metric>) | ZeroDivisionError

  /** `sorted(metrics, key=lambda x: x[0])`: a stable sort on the names in Python's string order. */
  function SortByName(ms: seq<Metric>): (r: seq<Metric>)
    ensures |r| == |ms| && multiset(r) == multiset(ms)
  {
    SortBy(ms, NameOf, LexOrder.LexLess)
  }

  /** The names each branch emits, in ascending order: an independent table of the expected output. */
  function ExpectedNames(t: SystemType): seq<string> {
    match t
    case Classification => ["accuracy", "f1", "precision", "recall"]
    case Regression => ["mae", "rmse"]
    case Ranking => ["precision_at_3", "recall_at_3"]
    case Unrecognized => []
  }

  /** The list the chosen branch builds before the final sort (`metrics = []` when no branch is taken). */
  function BranchMetrics(t: SystemType, yTrue: seq<real>, yPred: seq<real>): (r: Outcome)
    ensures r.ZeroDivisionError? <==> t == Regression && |yTrue| == 0
    ensures r.Ok? ==> Names(r.metrics) == ExpectedNames(t)
  {
    match t
    case Classification => Ok(ClassificationMetrics.Metrics(yTrue, yPred))
    case Regression =>
      if |yTrue| == 0 then ZeroDivisionError
      else Ok(RegressionMetrics.Metrics(yTrue, yPred))
    case Ranking => Ok(RankingMetrics.Metrics(yTrue, yPred))
    case Unrecognized => Ok([])
  }

  /** Every table row lists its names in strictly ascending order. */
  lemma ExpectedNamesAscending(t: SystemType)
    ensures StrictlyAscending(ExpectedNames(t))
  {
    var names := ExpectedNames(t);
    forall i, j | 0 <= i < j < |names|
      ensures LexLess(names[i], names[j])
    {
      assert names[i][0] < names[j][0];
    }
  }

  /** Strictly ascending names are already in the order `sorted` produces, so it returns the list unchanged. */
  lemma SortByNameOfAscending(ms: seq<Metric>)
    requires StrictlyAscending(Names(ms))
    ensures SortByName(ms) == ms
  {
    forall i, j | 0 <= i < j < |ms|
      ensures !LexLess(NameOf(ms[j]), NameOf(ms[i]))
    {
      assert Names(ms)[i] == NameOf(ms[i]) && Names(ms)[j] == NameOf(ms[j]);
      LexLessAsymmetric(NameOf(ms[i]), NameOf(ms[j]));
    }
    SortBySortedIsIdentity(ms, NameOf, LexOrder.LexLess);
  }

  /**
   The whole function. It faults exactly for the regression tag with an
   empty `y_true`; otherwise it returns the branch's metrics, whose names
   are those of the tag's table row, strictly ascending.
   */
  function Compute(systemType: string, yTrue: seq<real>, yPred: seq<real>): (r: Outcome)
    ensures r.ZeroDivisionError? <==> systemType == "regression" && |yTrue| == 0
    ensures r.Ok? ==> Names(r.metrics) == ExpectedNames(ParseSystemType(systemType))
    ensures r.Ok? ==> StrictlyAscending(Names(r.metrics))
  {
    var t := ParseSystemType(systemType);
    match BranchMetrics(t, yTrue, yPred)
    case ZeroDivisionError => ZeroDivisionError
    case Ok(ms) =>
      ExpectedNamesAscending(t);
      SortByNameOfAscending(ms);
      Ok(SortByName(ms))
  }

  /** The final sort permutes any list and leaves its names in non-decreasing order. */
  lemma SortByNameOrdersNames(ms: seq<Metric>)
    ensures multiset(SortByName(ms)) == multiset(ms)
    ensures forall i, j :: 0 <= i < j < |ms| ==> !LexLess(SortByName(ms)[j].name, SortByName(ms)[i].name)
  {
    LexLessIsStrictTotalOrder();
    SortByIsSorted(ms, NameOf, LexOrder.LexLess);
  }

  /** Each branch's list reaches the caller unchanged by the final sort. */
  lemma ComputeReturnsBranchList(systemType: string, yTrue: seq<real>, yPred: seq<real>)
    ensures systemType == "classification" ==>
      Compute(systemType, yTrue, yPred) == Ok(ClassificationMetrics.Metrics(yTrue, yPred))
    ensures systemType == "regression" && |yTrue| > 0 ==>
      Compute(systemType, yTrue, yPred) == Ok(RegressionMetrics.Metrics(yTrue, yPred))
    ensures systemType == "ranking" ==>
      Compute(systemType, yTrue, yPred) == Ok(RankingMetrics.Metrics(yTrue, yPred))
    ensures ParseSystemType(systemType) == Unrecognized ==> Compute(systemType, yTrue, yPred) == Ok([])
  {
    var t := ParseSystemType(systemType);
    var b := BranchMetrics(t, yTrue, yPred);
    if b.Ok? {
      ExpectedNamesAscending(t);
      SortByNameOfAscending(b.metrics);
    }
  }

  /** An unknown tag yields the empty list, whatever the inputs. */
  lemma UnknownTagExamples()
    ensures Compute("unknown", [], []) == Ok([])
    ensures Compute("unknown", [1.0], [0.0]) == Ok([])
  {
    ComputeReturnsBranchList("unknown", [], []);
    ComputeReturnsBranchList("unknown", [1.0], [0.0]);
  }

  /** Labels [1, 0, 1, 0] against [1, 1, 0, 0]: every metric 0.5, names ascending. */
  lemma ClassificationExample()
    ensures Compute("classification", [1.0, 0.0, 1.0, 0.0], [1.0, 1.0, 0.0, 0.0]) == Ok([
      Metric("accuracy", Exact(0.5)), Metric("f1", Exact(0.5)),
      Metric("precision", Exact(0.5)), Metric("recall", Exact(0.5)) ])
  {
    ComputeReturnsBranchList("classification", [1.0, 0.0, 1.0, 0.0], [1.0, 1.0, 0.0, 0.0]);
    ClassificationMetrics.OnePairPerCellExample();
  }

  /** Values [3, 5] against [2, 8]: MAE 2 and RMSE the square root of 5. */
  lemma RegressionExample()
    ensures Compute("regression", [3.0, 5.0], [2.0, 8.0])
         == Ok([Metric("mae", Exact(2.0)), Metric("rmse", SquareRoot(5.0))])
  {
    ComputeReturnsBranchList("regression", [3.0, 5.0], [2.0, 8.0]);
    RegressionMetrics.TwoPointExample();
  }

  /** Regression over an empty `y_true` raises ZeroDivisionError. */
  lemma RegressionEmptyFaults()
    ensures Compute("regression", [], []) == ZeroDivisionError
  {
  }

  /** Relevance [1, 0] scored [0.9, 0.1]: precision@3 is 1/3 and recall@3 is 1. */
  lemma RankingExample()
    ensures Compute("ranking", [1.0, 0.0], [0.9, 0.1])
         == Ok([Metric("precision_at_3", Exact(1.0 / 3.0)), Metric("recall_at_3", Exact(1.0))])
  {
    ComputeReturnsBranchList("ranking", [1.0, 0.0], [0.9, 0.1]);
    RankingMetrics.TwoItemExample();
  }
}

=== FILE: pairing.dfy ===
/**
 Pairing of the true and predicted sequences, and the sum of a sequence.

 Python's `zip` stops at the shorter sequence, so pairs exist only for the
 first min(|y_true|, |y_pred|) positions; every element is an exact `real`
 (an integer label such as 1 is the real 1.0, to which Python's `1 == 1.0`
 also makes it equal).
 */
module Pairing {

  /** One element of `zip(y_true, y_pred)`: a true value and the matching prediction. */
  datatype Pair = Pair(truth: real, pred: real)

  function Min(a: int, b: int): int {
    if a <= b then a else b
  }

  /** `zip(a, b)`: the pairs of equal index, up to the end of the shorter sequence. */
  function Zip(a: seq<real>, b: seq<real>): seq<Pair> {
    seq(Min(|a|, |b|), i requires 0 <= i < Min(|a|, |b|) => Pair(a[i], b[i]))
  }

  /** The true values of `ps`, in order. */
  function Truths(ps: seq<Pair>): seq<real> {
    seq(|ps|, i requires 0 <= i < |ps| => ps[i].truth)
  }

  /** Python's `sum`, over exact reals. */
  function Sum(xs: seq<real>): real {
    if |xs| == 0 then 0.0 else xs[0] + Sum(xs[1..])
  }

  /** Every element is 0 or 1: a binary label or relevance. */
  predicate Binary(xs: seq<real>) {
    forall i :: 0 <= i < |xs| ==> xs[i] == 0.0 || xs[i] == 1.0
  }

  /**
   `zip` pairs equal indices and ignores the tail of the longer sequence: it
   is the zip of the two prefixes of length min(|a|, |b|).
   */
  lemma ZipTruncates(a: seq<real>, b: seq<real>)
    ensures |Zip(a, b)| == Min(|a|, |b|)
    ensures forall i :: 0 <= i < |Zip(a, b)| ==> Zip(a, b)[i] == Pair(a[i], b[i])
    ensures Zip(a, b) == Zip(a[..Min(|a|, |b|)], b[..Min(|a|, |b|)])
  {
    var m := Min(|a|, |b|);
    assert |Zip(a[..m], b[..m])| == m;
    forall i | 0 <= i < m
      ensures Zip(a, b)[i] == Zip(a[..m], b[..m])[i]
    {
      assert a[..m][i] == a[i] && b[..m][i] == b[i];
    }
  }

  /** The true values of the zipped pairs are the first min(|a|, |b|) elements of `a`. */
  lemma TruthsOfZip(a: seq<real>, b: seq<real>)
    ensures Truths(Zip(a, b)) == a[..Min(|a|, |b|)]
  {
  }

  lemma TruthsAppend(a: seq<Pair>, b: seq<Pair>)
    ensures Truths(a + b) == Truths(a) + Truths(b)
  {
    var l, r := Truths(a + b), Truths(a) + Truths(b);
    assert |l| == |r|;
    forall i | 0 <= i < |l| ensures l[i] == r[i] {
      if i < |a| {
        assert (a + b)[i] == a[i];
      } else {
        assert (a + b)[i] == b[i - |a|];
      }
    }
  }

  lemma {:induction false} SumAppend(xs: seq<real>, ys: seq<real>)
    ensures Sum(xs + ys) == Sum(xs) + Sum(ys)
    decreases |xs|
  {
    if |xs| == 0 {
      assert xs + ys == ys;
    } else {
      assert (xs + ys)[1..] == xs[1..] + ys;
      SumAppend(xs[1..], ys);
    }
  }

  /** A sum of 0/1 values lies between 0 and the number of values. */
  lemma {:induction false} SumOfBinary(xs: seq<real>)
    requires Binary(xs)
    ensures 0.0 <= Sum(xs) <= |xs| as real
    decreases |xs|
  {
    if |xs| > 0 {
      assert Binary(xs[1..]) by {
        forall i | 0 <= i < |xs[1..]| ensures xs[1..][i] == 0.0 || xs[1..][i] == 1.0 {
          assert xs[1..][i] == xs[i + 1];
        }
      }
      SumOfBinary(xs[1..]);
    }
  }

  /** The sum of a prefix of 0/1 values is at most the sum of the whole. */
  lemma SumOfBinaryPrefix(xs: seq<real>, k: nat)
    requires Binary(xs)
    requires k <= |xs|
    ensures Sum(xs[..k]) <= Sum(xs)
  {
    assert xs == xs[..k] + xs[k..];
    SumAppend(xs[..k], xs[k..]);
    assert Binary(xs[k..]) by {
      forall i | 0 <= i < |xs[k..]| ensures xs[k..][i] == 0.0 || xs[k..][i] == 1.0 {
        assert xs[k..][i] == xs[k + i];
      }
    }
    SumOfBinary(xs[k..]);
  }

  /** The sum of the true values does not depend on the order of the pairs. */
  lemma {:induction false} SumTruthsOfPermutation(a: seq<Pair>, b: seq<Pair>)
    requires multiset(a) == multiset(b)
    ensures Sum(Truths(a)) == Sum(Truths(b))
    decreases |a|
  {
    if |a| == 0 {
      assert |b| == |multiset(b)| == 0;
    } else {
      var x := a[0];
      assert x in multiset(b);
      var k :| 0 <= k < |b| && b[k] == x;
      var rest := b[..k] + b[k + 1..];
      assert b == b[..k] + [x] + b[k + 1..];
      assert a == [x] + a[1..];
      assert multiset(b) == multiset(b[..k]) + multiset{x} + multiset(b[k + 1..]);
      assert multiset(a) == multiset{x} + multiset(a[1..]);
      assert multiset(rest) == multiset(b[..k]) + multiset(b[k + 1..]);
      assert multiset(a[1..]) == multiset(a) - multiset{x};
      assert multiset(rest) == multiset(b) - multiset{x};
      SumTruthsOfPermutation(a[1..], rest);
      TruthsAppend([x], a[1..]);
      TruthsAppend(b[..k] + [x], b[k + 1..]);
      TruthsAppend(b[..k], [x]);
      TruthsAppend(b[..k], b[k + 1..]);
      assert Truths([x]) == [x.truth];
      SumAppend(Truths(b[..k]) + [x.truth], Truths(b[k + 1..]));
      SumAppend(Truths(b[..k]), [x.truth]);
      SumAppend(Truths(b[..k]), Truths(b[k + 1..]));
    }
  }
}

=== FILE: ranking.dfy ===
/**
 The "ranking" branch: the zipped (relevance, score) pairs are sorted by
 score, highest first and stably, the first three are kept, and the
 relevance found there is compared with the number of slots (3) and with
 the relevance of all of `y_true`.
 */
module RankingMetrics {
  import opened Pairing
  import opened SafeDivision
  import opened MetricTypes
  import opened StableSort

  /** The sort key: a pair's predicted score. */
  function Score(p: Pair): real {
    p.pred
  }

  /** Under `reverse=True` a score goes strictly before every lower score. */
  predicate Higher(a: real, b: real) {
    a > b
  }

  /** `pairs.sort(key=score, reverse=True)`: scores descending, ties in input order. */
  function Ranked(ps: seq<Pair>): (r: seq<Pair>)
    ensures |r| == |ps|
  {
    SortBy(ps, Score, Higher)
  }

  /** `pairs[:3]`: the first three ranked pairs, or all of them when there are fewer. */
  function Top3(ranked: seq<Pair>): (top: seq<Pair>)
    ensures |top| == Min(3, |ranked|)
    ensures forall i :: 0 <= i < |top| ==> top[i] == ranked[i]
  {
    ranked[..Min(3, |ranked|)]
  }

  /** `relevant_top3`: the relevance summed over the top three ranked pairs. */
  function RelevantTop3(yTrue: seq<real>, yPred: seq<real>): real {
    Sum(Truths(Top3(Ranked(Zip(yTrue, yPred)))))
  }

  /** `total_relevant`: the relevance summed over ALL of `y_true`, zipped or not. */
  function TotalRelevant(yTrue: seq<real>): real {
    Sum(yTrue)
  }

  /** Precision@3 divides by the literal 3, even when fewer than three pairs exist. */
  function PrecisionAt3(yTrue: seq<real>, yPred: seq<real>): (p: real)
    ensures p * 3.0 == RelevantTop3(yTrue, yPred)
  {
    SafeDiv(RelevantTop3(yTrue, yPred), 3.0)
  }

  /** Recall@3: the share of all relevance found in the top three, or 0 when there is none. */
  function RecallAt3(yTrue: seq<real>, yPred: seq<real>): (r: real)
    ensures TotalRelevant(yTrue) != 0.0 ==> r * TotalRelevant(yTrue) == RelevantTop3(yTrue, yPred)
    ensures TotalRelevant(yTrue) == 0.0 ==> r == 0.0
  {
    SafeDiv(RelevantTop3(yTrue, yPred), TotalRelevant(yTrue))
  }

  /** The branch's list, in the order it is built. */
  function Metrics(yTrue: seq<real>, yPred: seq<real>): (ms: seq<Metric>)
    ensures Names(ms) == ["precision_at_3", "recall_at_3"]
    ensures ms[0].value == Exact(PrecisionAt3(yTrue, yPred))
    ensures ms[1].value == Exact(RecallAt3(yTrue, yPred))
  {
    [ Metric("precision_at_3", Exact(PrecisionAt3(yTrue, yPred))),
      Metric("recall_at_3", Exact(RecallAt3(yTrue, yPred))) ]
  }

  lemma HigherIsStrictTotalOrder()
    ensures StrictTotalOrder(Higher)
  {
  }

  /**
   The ranking is a permutation of the pairs, its scores never increase, and
   pairs of equal score keep their relative input order.
   */
  lemma RankedIsStableDescending(ps: seq<Pair>)
    ensures multiset(Ranked(ps)) == multiset(ps)
    ensures forall i, j :: 0 <= i < j < |Ranked(ps)| ==> Score(Ranked(ps)[i]) >= Score(Ranked(ps)[j])
    ensures forall score :: WithKey(Ranked(ps), Score, score) == WithKey(ps, Score, score)
  {
    HigherIsStrictTotalOrder();
    SortByIsSorted(ps, Score, Higher);
    forall score
      ensures WithKey(Ranked(ps), Score, score) == WithKey(ps, Score, score)
    {
      SortByIsStable(ps, Score, Higher, score);
    }
  }

  /** Every pair in the top three scores at least as high as every pair left out of it. */
  lemma Top3ScoresHighest(ps: seq<Pair>)
    ensures forall i, j :: 0 <= i < |Top3(Ranked(ps))| <= j < |ps| ==>
      Score(Ranked(ps)[i]) >= Score(Ranked(ps)[j])
  {
    RankedIsStableDescending(ps);
  }

  /** Pairs already in descending score order are ranked as given. */
  lemma RankedDescendingIsIdentity(ps: seq<Pair>)
    requires forall i, j :: 0 <= i < j < |ps| ==> Score(ps[i]) >= Score(ps[j])
    ensures Ranked(ps) == ps
  {
    SortBySortedIsIdentity(ps, Score, Higher);
  }

  lemma TruthsOfPrefix(ps: seq<Pair>, k: nat)
    requires k <= |ps|
    ensures Truths(ps[..k]) == Truths(ps)[..k]
  {
  }

  /** Every true value of a pair of the zip of binary `yTrue` is 0 or 1. */
  lemma BinaryTruthsOfZip(yTrue: seq<real>, yPred: seq<real>)
    requires Binary(yTrue)
    ensures forall p :: p in multiset(Zip(yTrue, yPred)) ==> p.truth == 0.0 || p.truth == 1.0
  {
    forall p | p in multiset(Zip(yTrue, yPred))
      ensures p.truth == 0.0 || p.truth == 1.0
    {
      var ps := Zip(yTrue, yPred);
      var i :| 0 <= i < |ps| && ps[i] == p;
      assert p.truth == yTrue[i];
    }
  }

  /** A binary `yTrue` stays binary through zipping and ranking. */
  lemma BinaryRankedTruths(yTrue: seq<real>, yPred: seq<real>)
    requires Binary(yTrue)
    ensures Binary(Truths(Ranked(Zip(yTrue, yPred))))
  {
    var ps := Zip(yTrue, yPred);
    var r := Ranked(ps);
    RankedIsStableDescending(ps);
    BinaryTruthsOfZip(yTrue, yPred);
    forall i | 0 <= i < |r|
      ensures r[i].truth == 0.0 || r[i].truth == 1.0
    {
      assert r[i] in multiset(r);
    }
  }

  /**
   With 0/1 relevances the top three hold at most 3 relevant items and at
   most all the relevant items of `y_true`, so both metrics are fractions.
   */
  lemma BinaryRelevanceBounds(yTrue: seq<real>, yPred: seq<real>)
    requires Binary(yTrue)
    ensures 0.0 <= RelevantTop3(yTrue, yPred) <= 3.0
    ensures RelevantTop3(yTrue, yPred) <= TotalRelevant(yTrue)
    ensures 0.0 <= PrecisionAt3(yTrue, yPred) <= 1.0
    ensures 0.0 <= RecallAt3(yTrue, yPred) <= 1.0
  {
    var ps := Zip(yTrue, yPred);
    var r := Ranked(ps);
    var m := Min(|yTrue|, |yPred|);
    var k := Min(3, |r|);
    BinaryRankedTruths(yTrue, yPred);
    TruthsOfPrefix(r, k);
    assert Truths(Top3(r)) == Truths(r)[..k];
    SumOfBinaryPrefix(Truths(r), k);
    assert Binary(Truths(r)[..k]) by {
      forall i | 0 <= i < k
        ensures Truths(r)[..k][i] == 0.0 || Truths(r)[..k][i] == 1.0
      {
        assert Truths(r)[..k][i] == Truths(r)[i];
      }
    }
    SumOfBinary(Truths(r)[..k]);
    RankedIsStableDescending(ps);
    SumTruthsOfPermutation(r, ps);
    TruthsOfZip(yTrue, yPred);
    SumOfBinaryPrefix(yTrue, m);
    SafeDivUnitInterval(RelevantTop3(yTrue, yPred), TotalRelevant(yTrue));
  }

  /**
   `total_relevant` sums all of `y_true`: the relevance of the zipped pairs
   plus that of the true values `zip` leaves unpaired.
   */
  lemma TotalRelevantCountsUnpaired(yTrue: seq<real>, yPred: seq<real>)
    ensures var m := Min(|yTrue|, |yPred|);
      TotalRelevant(yTrue) == Sum(Truths(Zip(yTrue, yPred))) + Sum(yTrue[m..])
  {
    var m := Min(|yTrue|, |yPred|);
    TruthsOfZip(yTrue, yPred);
    assert yTrue == yTrue[..m] + yTrue[m..];
    SumAppend(yTrue[..m], yTrue[m..]);
  }

  /** With at most three pairs all of them are in the top three, so their whole relevance is counted. */
  lemma RelevantTop3OfFewPairs(yTrue: seq<real>, yPred: seq<real>)
    requires Min(|yTrue|, |yPred|) <= 3
    ensures RelevantTop3(yTrue, yPred) == Sum(Truths(Zip(yTrue, yPred)))
  {
    var ps := Zip(yTrue, yPred);
    var r := Ranked(ps);
    assert Top3(r) == r;
    RankedIsStableDescending(ps);
    SumTruthsOfPermutation(r, ps);
  }

  /** With three or more pairs, the relevance of the three highest-ranked pairs is counted. */
  lemma RelevantTop3OfManyPairs(yTrue: seq<real>, yPred: seq<real>)
    requires Min(|yTrue|, |yPred|) >= 3
    ensures var r := Ranked(Zip(yTrue, yPred));
      RelevantTop3(yTrue, yPred) == r[0].truth + r[1].truth + r[2].truth
  {
    var r := Ranked(Zip(yTrue, yPred));
    Top3Truths(r);
    SumOfThree(r[0].truth, r[1].truth, r[2].truth);
  }

  /** Relevance [1, 0] scored [0.9, 0.1]: one relevant item in a top three of two, so 1/3 and 1. */
  lemma TwoItemExample()
    ensures Metrics([1.0, 0.0], [0.9, 0.1])
         == [Metric("precision_at_3", Exact(1.0 / 3.0)), Metric("recall_at_3", Exact(1.0))]
  {
    var ps := Zip([1.0, 0.0], [0.9, 0.1]);
    assert ps == [Pair(1.0, 0.9), Pair(0.0, 0.1)];
    RankedDescendingIsIdentity(ps);
    assert Top3(ps) == ps;
    assert Truths(ps) == [1.0, 0.0];
    assert [1.0, 0.0][1..][1..] == [];
    assert Sum([1.0, 0.0]) == 1.0;
  }

  /** Four items scored alike are ranked in input order. */
  lemma TiedScoresRanking()
    ensures Ranked(Zip([0.0, 1.0, 1.0, 1.0], [0.5, 0.5, 0.5, 0.5]))
         == [Pair(0.0, 0.5), Pair(1.0, 0.5), Pair(1.0, 0.5), Pair(1.0, 0.5)]
  {
    var ps := [Pair(0.0, 0.5), Pair(1.0, 0.5), Pair(1.0, 0.5), Pair(1.0, 0.5)];
    assert Zip([0.0, 1.0, 1.0, 1.0], [0.5, 0.5, 0.5, 0.5]) == ps;
    RankedDescendingIsIdentity(ps);
  }

  lemma Top3Truths(ps: seq<Pair>)
    requires |ps| >= 3
    ensures Truths(Top3(ps)) == [ps[0].truth, ps[1].truth, ps[2].truth]
  {
  }

  lemma SumOfThree(a: real, b: real, c: real)
    ensures Sum([a, b, c]) == a + b + c
  {
    assert [c][1..] == [];
    assert Sum([c]) == c;
    assert [b, c][1..] == [c];
    assert Sum([b, c]) == b + c;
    assert [a, b, c][1..] == [b, c];
  }

  /** With ties kept in input order, the top three of relevances [0, 1, 1, 1] hold 2 relevant items. */
  lemma TiedScoresRelevance()
    ensures RelevantTop3([0.0, 1.0, 1.0, 1.0], [0.5, 0.5, 0.5, 0.5]) == 2.0
  {
    TiedScoresRanking();
    var r := Ranked(Zip([0.0, 1.0, 1.0, 1.0], [0.5, 0.5, 0.5, 0.5]));
    Top3Truths(r);
    SumOfThree(r[0].truth, r[1].truth, r[2].truth);
  }

  /** With the tie kept in input order, both metrics are 2/3. */
  lemma TiedScoresExample()
    ensures Metrics([0.0, 1.0, 1.0, 1.0], [0.5, 0.5, 0.5, 0.5])
         == [Metric("precision_at_3", Exact(2.0 / 3.0)), Metric("recall_at_3", Exact(2.0 / 3.0))]
  {
    TiedScoresRelevance();
    assert [0.0, 1.0, 1.0, 1.0][1..][1..][1..][1..] == [];
    assert TotalRelevant([0.0, 1.0, 1.0, 1.0]) == 3.0;
  }
}

=== FILE: regression.dfy ===
/**
 The "regression" branch: absolute and squared error summed over the zipped
 pairs, each divided by the number of true values.

 The source divides without a guard, so an empty `y_true` is a
 ZeroDivisionError; every function here that divides requires a non-empty
 `yTrue`, and the dispatcher turns the empty case into that error.
 */
module RegressionMetrics {
  import opened Pairing
  import opened MetricTypes

  function Abs(x: real): real {
    if x < 0.0 then -x else x
  }

  /** `x ** 2`, never negative. */
  function Square(x: real): (r: real)
    ensures r >= 0.0
  {
    x * x
  }

  /** A square is 0 only at 0. */
  lemma SquareZeroIff(x: real)
    ensures Square(x) == 0.0 <==> x == 0.0
  {
    if x < 0.0 {
      PositiveProduct(-x, -x, Square(x));
    } else if x > 0.0 {
      PositiveProduct(x, x, Square(x));
    }
  }

  lemma AbsSquare(x: real)
    ensures Abs(x) >= 0.0 && Abs(x) * Abs(x) == Square(x)
  {
    if x < 0.0 {
      assert Abs(x) * Abs(x) == (-x) * (-x);
    }
  }

  lemma MulMonotone(a: real, b: real, q: real)
    requires a <= b && q >= 0.0
    ensures a * q <= b * q
  {
    if q > 0.0 && a < b {
      PositiveProduct(b - a, q, (b - a) * q);
    }
  }

  /**
   A product of two positive numbers is positive. The product is passed in as
   `p` so that a caller can name a square such as Square(x): the solver does
   not draw this conclusion for a product of a term with itself unaided.
   */
  lemma PositiveProduct(a: real, b: real, p: real)
    requires a > 0.0 && b > 0.0 && p == a * b
    ensures p > 0.0
  {
  }

  /** A product with a positive factor is non-negative only if the other factor is. */
  lemma PositiveFactor(k: real, t: real)
    requires k > 0.0 && k * t >= 0.0
    ensures t >= 0.0
  {
    if t < 0.0 {
      PositiveProduct(k, -t, k * -t);
    }
  }

  /** `abs_err` after the loop: the sum of |true - predicted| over the pairs. */
  function AbsErrorSum(ps: seq<Pair>): (e: real)
    ensures e >= 0.0
  {
    if |ps| == 0 then 0.0
    else Abs(ps[0].truth - ps[0].pred) + AbsErrorSum(ps[1..])
  }

  /** `sq_err` after the loop: the sum of (true - predicted)^2 over the pairs. */
  function SquaredErrorSum(ps: seq<Pair>): (e: real)
    ensures e >= 0.0
  {
    if |ps| == 0 then 0.0
    else Square(ps[0].truth - ps[0].pred) + SquaredErrorSum(ps[1..])
  }

  /** Every pair's prediction equals its true value. */
  predicate PredictedExactly(ps: seq<Pair>) {
    forall i :: 0 <= i < |ps| ==> ps[i].truth == ps[i].pred
  }

  /** An error sum divided by the count `n`, which the source takes to be `len(y_true)`. */
  function Mean(total: real, n: nat): (m: real)
    requires n > 0
    ensures m * n as real == total
  {
    total / n as real
  }

  /** Mean absolute error: the absolute error sum over the number of TRUE values, not of pairs. */
  function Mae(yTrue: seq<real>, yPred: seq<real>): (mae: real)
    requires |yTrue| > 0
    ensures mae >= 0.0
    ensures mae * |yTrue| as real == AbsErrorSum(Zip(yTrue, yPred))
  {
    Mean(AbsErrorSum(Zip(yTrue, yPred)), |yTrue|)
  }

  /** Mean squared error, the number whose square root is reported as RMSE; never negative, so the root exists. */
  function Mse(yTrue: seq<real>, yPred: seq<real>): (mse: real)
    requires |yTrue| > 0
    ensures mse >= 0.0
    ensures mse * |yTrue| as real == SquaredErrorSum(Zip(yTrue, yPred))
  {
    Mean(SquaredErrorSum(Zip(yTrue, yPred)), |yTrue|)
  }

  /** The branch's list, in the order it is built; RMSE is kept as the square root of the MSE. */
  function Metrics(yTrue: seq<real>, yPred: seq<real>): (ms: seq<Metric>)
    requires |yTrue| > 0
    ensures Names(ms) == ["mae", "rmse"]
    ensures ms[0].value == Exact(Mae(yTrue, yPred))
    ensures ms[1].value == SquareRoot(Mse(yTrue, yPred)) && ms[1].value.radicand >= 0.0
  {
    [ Metric("mae", Exact(Mae(yTrue, yPred))),
      Metric("rmse", SquareRoot(Mse(yTrue, yPred))) ]
  }

  /** Both error sums are 0 exactly when every prediction is exact. */
  lemma {:induction false} ErrorSumsZeroIff(ps: seq<Pair>)
    ensures AbsErrorSum(ps) == 0.0 <==> PredictedExactly(ps)
    ensures SquaredErrorSum(ps) == 0.0 <==> PredictedExactly(ps)
  {
    if |ps| > 0 {
      var rest := ps[1..];
      ErrorSumsZeroIff(rest);
      var diff := ps[0].truth - ps[0].pred;
      SquareZeroIff(diff);
      assert AbsErrorSum(ps) == Abs(diff) + AbsErrorSum(rest);
      assert SquaredErrorSum(ps) == Square(diff) + SquaredErrorSum(rest);
      assert PredictedExactly(ps) <==> diff == 0.0 && PredictedExactly(rest) by {
        if PredictedExactly(ps) {
          forall i | 0 <= i < |rest| ensures rest[i].truth == rest[i].pred {
            assert rest[i] == ps[i + 1];
          }
        }
        if diff == 0.0 && PredictedExactly(rest) {
          forall i | 0 <= i < |ps| ensures ps[i].truth == ps[i].pred {
            if i > 0 {
              assert ps[i] == rest[i - 1];
            }
          }
        }
      }
    }
  }

  /** MAE and MSE are 0 exactly when every zipped prediction equals its true value. */
  lemma ZeroErrorIff(yTrue: seq<real>, yPred: seq<real>)
    requires |yTrue| > 0
    ensures Mae(yTrue, yPred) == 0.0 <==> forall i :: 0 <= i < Min(|yTrue|, |yPred|) ==> yTrue[i] == yPred[i]
    ensures Mse(yTrue, yPred) == 0.0 <==> forall i :: 0 <= i < Min(|yTrue|, |yPred|) ==> yTrue[i] == yPred[i]
  {
    var ps := Zip(yTrue, yPred);
    ErrorSumsZeroIff(ps);
    assert forall i :: 0 <= i < |ps| ==> ps[i] == Pair(yTrue[i], yPred[i]);
  }

  /**
   The inductive step of Cauchy-Schwarz: adding one error x (with square
   x^2) to sums s and q over m > 0 pairs keeps (sum)^2 <= count * (sum of squares).
   */
  lemma CauchySchwarzStep(x: real, s: real, q: real, m: real)
    requires x >= 0.0 && s >= 0.0 && q >= 0.0 && m > 0.0
    requires s * s <= m * q
    ensures (x + s) * (x + s) <= (m + 1.0) * (x * x + q)
  {
    // 2xs <= m x^2 + q, from (m x - s)^2 >= 0
    var t := m * x - s;
    assert Square(t) >= 0.0;
    assert m * (m * x * x + q - 2.0 * x * s) == Square(t) + (m * q - s * s);
    PositiveFactor(m, m * x * x + q - 2.0 * x * s);
    assert 2.0 * x * s <= m * x * x + q;
    assert (x + s) * (x + s) == x * x + 2.0 * x * s + s * s;
    assert (m + 1.0) * (x * x + q) == x * x + m * x * x + q + m * q;
  }

  /**
   The Cauchy-Schwarz inequality for a sum s of n non-negative terms whose
   squares sum to q. It is named, and the induction step below is split into
   the first term and later terms, only so that each proof step keeps the
   products the solver has to handle small; nothing in the source corresponds.
   */
  predicate CauchySchwarzBound(s: real, n: real, q: real) {
    s * s <= n * q
  }

  /** The first term: s^2 <= 0 forces s = 0, and x^2 <= x^2 + q. */
  lemma CauchySchwarzFirst(x: real, xx: real, s: real, q: real, total: real, sq: real, n: real)
    requires s >= 0.0 && q >= 0.0 && CauchySchwarzBound(s, 0.0, q)
    requires xx == x * x && total == x + s && sq == xx + q && n == 1.0
    ensures CauchySchwarzBound(total, n, sq)
  {
    if s > 0.0 {
      PositiveProduct(s, s, s * s);
      assert false;
    }
    assert total == x;
  }

  /** A later term: CauchySchwarzStep with the sums named. */
  lemma CauchySchwarzNext(x: real, xx: real, s: real, q: real, m: real, total: real, sq: real, n: real)
    requires x >= 0.0 && s >= 0.0 && q >= 0.0 && m > 0.0
    requires CauchySchwarzBound(s, m, q)
    requires xx == x * x && total == x + s && sq == xx + q && n == m + 1.0
    ensures CauchySchwarzBound(total, n, sq)
  {
    CauchySchwarzStep(x, s, q, m);
    assert total * total == (x + s) * (x + s);
    assert n * sq == (m + 1.0) * (x * x + q);
  }

  /** One more term x keeps the bound: from s^2 <= m q to (x + s)^2 <= (m + 1) (x^2 + q). */
  lemma CauchySchwarzCons(x: real, xx: real, s: real, q: real, m: real, total: real, sq: real, n: real)
    requires x >= 0.0 && s >= 0.0 && q >= 0.0 && m >= 0.0
    requires CauchySchwarzBound(s, m, q)
    requires xx == x * x && total == x + s && sq == xx + q && n == m + 1.0
    ensures CauchySchwarzBound(total, n, sq)
  {
    if m > 0.0 {
      CauchySchwarzNext(x, xx, s, q, m, total, sq, n);
    } else {
      CauchySchwarzFirst(x, xx, s, q, total, sq, n);
    }
  }

  /** Cauchy-Schwarz for the error sums: (sum |d|)^2 <= (number of pairs) * (sum d^2). */
  lemma {:induction false} ErrorSumsCauchySchwarz(ps: seq<Pair>)
    ensures CauchySchwarzBound(AbsErrorSum(ps), |ps| as real, SquaredErrorSum(ps))
  {
    if |ps| > 0 {
      var rest := ps[1..];
      var diff := ps[0].truth - ps[0].pred;
      AbsSquare(diff);
      ErrorSumsCauchySchwarz(rest);
      CauchySchwarzCons(Abs(diff), Square(diff), AbsErrorSum(rest), SquaredErrorSum(rest), |rest| as real,
        AbsErrorSum(ps), SquaredErrorSum(ps), |ps| as real);
    }
  }

  /** (n^2) (b - a^2) = n q - s^2 when a n = s and b n = q. */
  lemma ScaledGap(n: real, a: real, b: real, s: real, q: real)
    requires a * n == s && b * n == q && s * s <= n * q
    ensures n * (n * (b - a * a)) >= 0.0
  {
    assert n * (n * (b - a * a)) == n * q - s * s;
  }

  /** Dividing (sum |d|)^2 <= count * (sum d^2) twice by the count gives MAE^2 <= MSE. */
  lemma MeanSquareBound(a: real, b: real, s: real, q: real, n: real)
    requires n > 0.0 && a * n == s && b * n == q && s * s <= n * q
    ensures a * a <= b
  {
    ScaledGap(n, a, b, s, q);
    PositiveFactor(n, n * (b - a * a));
    PositiveFactor(n, b - a * a);
  }

  /** Between non-negative numbers, the order of the squares is the order of the numbers. */
  lemma SquareMonotone(a: real, b: real)
    requires a >= 0.0 && b >= 0.0 && a * a <= b * b
    ensures a <= b
  {
    assert (a + b) * (b - a) == b * b - a * a;
    if a + b > 0.0 {
      PositiveFactor(a + b, b - a);
    }
  }

  /** MeanSquareBound when the Cauchy-Schwarz count m is at most the divisor n. */
  lemma MeanSquareBoundAtMost(a: real, b: real, s: real, q: real, m: real, n: real)
    requires n > 0.0 && m <= n && q >= 0.0
    requires a * n == s && b * n == q && s * s <= m * q
    ensures a * a <= b
  {
    MulMonotone(m, n, q);
    MeanSquareBound(a, b, s, q, n);
  }

  /** MeanSquareBoundAtMost for the means themselves. */
  lemma MeansSquareBound(s: real, q: real, m: nat, n: nat)
    requires 0 < n && m <= n && q >= 0.0 && s * s <= m as real * q
    ensures Mean(s, n) * Mean(s, n) <= Mean(q, n)
  {
    MeanSquareBoundAtMost(Mean(s, n), Mean(q, n), s, q, m as real, n as real);
  }

  /** The MAE never exceeds the RMSE: MAE^2 <= MSE. */
  lemma MaeSquaredAtMostMse(yTrue: seq<real>, yPred: seq<real>)
    requires |yTrue| > 0
    ensures Mae(yTrue, yPred) * Mae(yTrue, yPred) <= Mse(yTrue, yPred)
  {
    ErrorSumsCauchySchwarz(Zip(yTrue, yPred));
    MeansSquareBound(AbsErrorSum(Zip(yTrue, yPred)), SquaredErrorSum(Zip(yTrue, yPred)),
      |Zip(yTrue, yPred)|, |yTrue|);
  }

  /** Whatever non-negative root of the MSE is reported as RMSE, it is at least the MAE. */
  lemma RmseAtLeastMae(yTrue: seq<real>, yPred: seq<real>, rmse: real)
    requires |yTrue| > 0
    requires rmse >= 0.0 && rmse * rmse == Mse(yTrue, yPred)
    ensures rmse >= Mae(yTrue, yPred)
  {
    MaeSquaredAtMostMse(yTrue, yPred);
    SquareMonotone(Mae(yTrue, yPred), rmse);
  }

  /** True values [3, 5] against predictions [2, 8]: errors 1 and -3, MAE 2, MSE 5. */
  lemma TwoPointExample()
    ensures Metrics([3.0, 5.0], [2.0, 8.0]) == [Metric("mae", Exact(2.0)), Metric("rmse", SquareRoot(5.0))]
  {
    var ps := Zip([3.0, 5.0], [2.0, 8.0]);
    assert ps == [Pair(3.0, 2.0), Pair(5.0, 8.0)];
    assert ps[1..][1..] == [];
    assert AbsErrorSum(ps) == 4.0;
    assert SquaredErrorSum(ps) == 10.0;
  }
}

=== FILE: safe_division.dfy ===
/**
 The shared division helper of the classification and ranking branches:
 a zero divisor gives 0 instead of an error.
 */
module SafeDivision {

  /** `a / b`, or 0 when `b` is 0. */
  function SafeDiv(a: real, b: real): (r: real)
    ensures b != 0.0 ==> r * b == a
    ensures b == 0.0 ==> r == 0.0
  {
    if b != 0.0 then a / b else 0.0
  }

  /** A part of a non-negative whole is a fraction in [0, 1], an empty whole included. */
  lemma SafeDivUnitInterval(a: real, b: real)
    requires 0.0 <= a <= b
    ensures 0.0 <= SafeDiv(a, b) <= 1.0
  {
    if b != 0.0 {
      assert (a / b - 1.0) * b == a - b;
    }
  }

  /** Nothing divided by anything is 0, a zero divisor included. */
  lemma SafeDivOfZero(b: real)
    ensures SafeDiv(0.0, b) == 0.0
  {
    if b != 0.0 {
      assert 0.0 / b == 0.0;
    }
  }

  /** The quotient of two positive numbers is positive. */
  lemma SafeDivPositive(a: real, b: real)
    requires 0.0 < a && 0.0 < b
    ensures SafeDiv(a, b) > 0.0
  {
  }

  /** A non-zero divisor determines the quotient: any `r` with `r * b == a` is `SafeDiv(a, b)`. */
  lemma SafeDivUnique(a: real, b: real, r: real)
    requires b > 0.0 && r * b == a
    ensures SafeDiv(a, b) == r
  {
    CancelPositive(SafeDiv(a, b), r, b);
  }

  /** A positive factor cancels from both sides of an equation. */
  lemma CancelPositive(f: real, g: real, k: real)
    requires k > 0.0 && f * k == g * k
    ensures f == g
  {
    assert (f - g) * k == 0.0;
  }
}

=== FILE: stable_sort.dfy ===
/**
 A stable sort by key, as Python's `list.sort` and `sorted` perform it.

 The order on keys is a parameter `lt`, read as "a key that goes strictly
 before another". Ascending order on names uses a lexicographic `lt`;
 `reverse=True` on scores uses `>`, which Python applies without giving up
 stability: elements whose keys are equal keep their original relative order.
 */
module StableSort {

  /** `lt` is irreflexive: no key goes strictly before itself. */
  ghost predicate Irreflexive<K(!new)>(lt: (K, K) -> bool) {
    forall a :: !lt(a, a)
  }

  /** `lt` is a strict total order: irreflexive, transitive, and any two distinct keys are comparable. */
  ghost predicate StrictTotalOrder<K(!new)>(lt: (K, K) -> bool) {
    && Irreflexive(lt)
    && (forall a, b, c :: lt(a, b) && lt(b, c) ==> lt(a, c))
    && (forall a, b :: a != b ==> lt(a, b) || lt(b, a))
  }

  /** No element's key goes strictly before the key of an element earlier in `s`. */
  predicate SortedBy<T, K>(s: seq<T>, key: T -> K, lt: (K, K) -> bool) {
    forall i, j :: 0 <= i < j < |s| ==> !lt(key(s[j]), key(s[i]))
  }

  /** The subsequence of `s` made of the elements whose key is `k`, in their order in `s`. */
  function WithKey<T, K(==)>(s: seq<T>, key: T -> K, k: K): seq<T> {
    if |s| == 0 then []
    else (if key(s[0]) == k then [s[0]] else []) + WithKey(s[1..], key, k)
  }

  /** Places `x` in front of the first element of `s` whose key does not go strictly before `x`'s. */
  function Insert<T, K>(x: T, s: seq<T>, key: T -> K, lt: (K, K) -> bool): (r: seq<T>)
    ensures |r| == |s| + 1
    ensures multiset(r) == multiset(s) + multiset{x}
  {
    if |s| == 0 || !lt(key(s[0]), key(x)) then [x] + s
    else
      assert s == [s[0]] + s[1..];
      [s[0]] + Insert(x, s[1..], key, lt)
  }

  /** Insertion sort from the back: each element is inserted in front of the equal keys already placed. */
  function SortBy<T, K>(s: seq<T>, key: T -> K, lt: (K, K) -> bool): (r: seq<T>)
    ensures |r| == |s|
    ensures multiset(r) == multiset(s)
  {
    if |s| == 0 then []
    else
      assert s == [s[0]] + s[1..];
      Insert(s[0], SortBy(s[1..], key, lt), key, lt)
  }

  lemma {:induction false} InsertKeepsSorted<T, K(!new)>(x: T, s: seq<T>, key: T -> K, lt: (K, K) -> bool)
    requires StrictTotalOrder(lt)
    requires SortedBy(s, key, lt)
    ensures SortedBy(Insert(x, s, key, lt), key, lt)
  {
    var r := Insert(x, s, key, lt);
    if |s| == 0 || !lt(key(s[0]), key(x)) {
      assert r == [x] + s;
      forall j | 0 < j < |r|
        ensures !lt(key(r[j]), key(x))
      {
        var e := s[j - 1];
        assert r[j] == e;
        if j - 1 > 0 {
          assert !lt(key(e), key(s[0]));
        }
      }
    } else {
      var t := Insert(x, s[1..], key, lt);
      InsertKeepsSorted(x, s[1..], key, lt);
      assert r == [s[0]] + t;
      forall j | 0 <= j < |t|
        ensures !lt(key(t[j]), key(s[0]))
      {
        assert t[j] in multiset(s[1..]) + multiset{x};
        if t[j] != x {
          assert t[j] in s[1..];
          var k :| 0 <= k < |s[1..]| && s[1..][k] == t[j];
          assert s[k + 1] == t[j];
        }
      }
    }
  }

  /** The result of `SortBy` is in order, whatever order its input was in. */
  lemma {:induction false} SortByIsSorted<T, K(!new)>(s: seq<T>, key: T -> K, lt: (K, K) -> bool)
    requires StrictTotalOrder(lt)
    ensures SortedBy(SortBy(s, key, lt), key, lt)
  {
    if |s| > 0 {
      SortByIsSorted(s[1..], key, lt);
      InsertKeepsSorted(s[0], SortBy(s[1..], key, lt), key, lt);
    }
  }

  lemma WithKeyCons<T, K>(x: T, s: seq<T>, key: T -> K, k: K)
    ensures WithKey([x] + s, key, k) == (if key(x) == k then [x] else []) + WithKey(s, key, k)
  {
    assert ([x] + s)[1..] == s;
  }

  /** Two prefixes of which at least one is empty can be swapped. */
  lemma SwapEmptyPrefix<T>(a: seq<T>, b: seq<T>, w: seq<T>)
    requires |a| == 0 || |b| == 0
    ensures a + (b + w) == b + (a + w)
  {
    if |a| == 0 {
      assert a + (b + w) == b + w;
    } else {
      assert b + (a + w) == a + w;
    }
  }

  /** Inserting `x` adds it to the elements of its own key, in front of them, and leaves every other key's elements alone. */
  lemma {:induction false} WithKeyOfInsert<T, K(!new)>(x: T, s: seq<T>, key: T -> K, lt: (K, K) -> bool, k: K)
    requires Irreflexive(lt)
    ensures WithKey(Insert(x, s, key, lt), key, k)
         == (if key(x) == k then [x] else []) + WithKey(s, key, k)
  {
    if |s| == 0 || !lt(key(s[0]), key(x)) {
      WithKeyCons(x, s, key, k);
    } else {
      var t := Insert(x, s[1..], key, lt);
      assert Insert(x, s, key, lt) == [s[0]] + t;
      assert s == [s[0]] + s[1..];
      WithKeyOfInsert(x, s[1..], key, lt, k);
      WithKeyCons(s[0], t, key, k);
      WithKeyCons(s[0], s[1..], key, k);
      assert key(s[0]) != key(x);
      SwapEmptyPrefix(if key(s[0]) == k then [s[0]] else [], if key(x) == k then [x] else [], WithKey(s[1..], key, k));
    }
  }

  /**
   Stability: for every key, the elements carrying that key appear in the
   sorted result in exactly the order they had in the input.
   */
  lemma {:induction false} SortByIsStable<T, K(!new)>(s: seq<T>, key: T -> K, lt: (K, K) -> bool, k: K)
    requires Irreflexive(lt)
    ensures WithKey(SortBy(s, key, lt), key, k) == WithKey(s, key, k)
  {
    if |s| > 0 {
      SortByIsStable(s[1..], key, lt, k);
      WithKeyOfInsert(s[0], SortBy(s[1..], key, lt), key, lt, k);
    }
  }

  /** Sorting a sequence that is already in order changes nothing. */
  lemma {:induction false} SortBySortedIsIdentity<T, K>(s: seq<T>, key: T -> K, lt: (K, K) -> bool)
    requires SortedBy(s, key, lt)
    ensures SortBy(s, key, lt) == s
  {
    if |s| > 0 {
      assert SortedBy(s[1..], key, lt) by {
        forall i, j | 0 <= i < j < |s[1..]|
          ensures !lt(key(s[1..][j]), key(s[1..][i]))
        {
          assert s[1..][j] == s[j + 1] && s[1..][i] == s[i + 1];
        }
      }
      SortBySortedIsIdentity(s[1..], key, lt);
      if |s| > 1 {
        assert !lt(key(s[1..][0]), key(s[0])) by { assert s[1..][0] == s[1]; }
      }
      assert s == [s[0]] + s[1..];
    }
  }
}
